=== FILE: README.md ===
# Taxi meter trip state machine, in Dafny

This project models the core of a small taxi meter. A time trip switches between
two states, *stopped* and *moving*. Each state is billed per second at its own rate.
The meter keeps one accumulator per state, and every transition folds the live
segment (the time since the last transition) into the accumulator of the state
being left. A separate form charges a fare for a typed distance.

The repository has three variants of the same machine, and each one is modelled
separately because they behave differently:

- `src/gui.py` is the desktop variant, in module `GuiTrip`. The trip lives in
  module-level globals and is driven by four buttons. A display refresh projects
  the live figures once a second. Each transition reads the clock once, so the
  accumulators plus the live segment equal the trip's elapsed time exactly. As
  written, the module stops while loading, before any button exists (see Left
  out). The model describes its callbacks as if the module loaded.
- `src/taximeter.py` is the newer command-line variant, in modules `CliMeter` and
  `TaximeterCli`. It is a command loop with hard-coded rates of 0.02 €/s stopped
  and 0.05 €/s moving. `start`, `stop` and `move` read the clock twice, so
  when the two readings of every start, stop and move are in order, accounted
  time is at most the elapsed time. The time lost is exactly the gap between the
  two readings of each transition.
- `src/main.py` is the older command-line variant, in module `MainCli`. It is the
  same loop, except that its `finish` branch summarises and resets the trip only
  when the trip is moving (see Findings).

Every operation is a pure function from the old state, the command and the clock
readings to the new state and what is printed or shown. The clock is a parameter.
Durations and fares are exact `real`s. Shared pieces are defined once: the state
enumeration and the segment fold in `Segments`, the fare formulas in `Fares`, and
optional and fallible values in `Wrappers`.

Three behaviours of the code worth noting:

- In the newer command-line variant, the elapsed-time identity holds only as an
  inequality.
- The live display does nothing while no trip runs. It does not show a zeroed
  snapshot.
- `finish` in the command-line variants leaves both timestamps as they were.

## Model

| member | source | states |
|---|---|---|
| Segments.Fold | src/taximeter.py:50-54 | a closed segment adds exactly its length to the two totals together, all of it to the stopped total for a stopped segment and all of it to the moving total otherwise; non-negative totals stay non-negative |
| Fares.TimeFare | src/gui.py:111 | the time fare of zero seconds is zero, and it is never negative for non-negative seconds and rates |
| Fares.TimeFareMonotone | src/gui.py:213 | with non-negative rates, more seconds in either state never lower the fare |
| Fares.TimeFareAdditive | src/taximeter.py:9 | the fare of a split of the seconds is the sum of the fares of the parts, so folding segments one at a time neither gains nor loses money |
| Fares.CalculateFare | src/taximeter.py:3-11 | the command-line fare is zero for an empty trip and never negative for non-negative durations |
| Fares.CalculateFareIsTimeFare | src/main.py:9 | the command-line fare is the general time fare at 0.02 per stopped second and 0.05 per moving second |
| Fares.CalculateFareTariff | src/taximeter.py:4-8 | one stopped second costs 0.02 and one moving second 0.05, as the docstring says |
| Fares.CalculateFareExample | src/taximeter.py:9 | 10 s stopped and 20 s moving cost 1.20 |
| Fares.DistanceFare | src/gui.py:146 | the distance fare is non-negative for a non-negative rate, and positive for a positive rate and distance |
| CliMeter.StartTrip | src/taximeter.py:31-41 | start is refused with no change while a trip is active; otherwise it opens a stopped trip with zero totals, a trip start from the first reading and a segment start from the second, leaving exactly the gap between the readings unaccounted |
| CliMeter.SwitchTo | src/taximeter.py:44-58 | stop/move is refused with no change when idle; otherwise the live segment up to the first reading goes into the total of the state being left (the other total unchanged), the target state is set, the segment restarts at the second reading, and the unaccounted gap grows by exactly the time between the readings |
| CliMeter.FinishTrip | src/taximeter.py:67-92 | finish is refused with no change when idle; otherwise it reports totals including the live segment and their fare, never more than the elapsed trip time when the meter satisfies the accounting invariant, and resets to idle with zero totals and no state |
| CliMeter.ExitIndex | src/taximeter.py:95-97 | the position of the first exit command, or the input length when none is typed |
| TaximeterCli.Step | src/taximeter.py:27-100 | refused commands, unknown commands and exit leave every local unchanged; exit answers goodbye and only exit does; unknown tokens are answered as unrecognised; a summary is always followed by an idle, zeroed meter |
| TaximeterCli.StepKeepsInvariants | src/taximeter.py:31-92 | each command keeps the meter reachable and keeps accounted time within elapsed time, provided that for start, stop and move the second reading is not earlier than the first (finish, exit and unknown commands need no condition) |
| TaximeterCli.Session | src/taximeter.py:27-100 | the loop stops exactly at the first exit, prints one answer per command read up to and including it, and its last answer is goodbye |
| TaximeterCli.SessionValid | src/taximeter.py:27-100 | whatever the clock reads, after any run the locals are in a state the loop can reach: an active trip is stopped or moving, an idle one holds zero totals |
| TaximeterCli.SessionAccounts | src/taximeter.py:35-58 | after any run in which the two readings of every start, stop and move are in order, at every instant, stopped + moving + (now - segment start) <= now - trip start |
| TaximeterCli.FreshSessionInvariants | src/taximeter.py:13-25 | a run from the locals `taximeter` starts with always ends reachable, and keeps the accounting inequality when the two readings of every start, stop and move are in order |
| TaximeterCli.StartLosesReadGap | src/taximeter.py:36-40 | with two distinct readings at start, part of the elapsed time is unaccounted from the outset, so the inequality cannot be strengthened to an equality |
| TaximeterCli.SessionNonNegative | src/taximeter.py:50-58 | under a clock that never goes back, both totals stay non-negative |
| TaximeterCli.StartMoveFinish | src/taximeter.py:31-92 | the loop fed start at t0, move at t1 and finish at t2 answers started, state changed to moving, then a summary of t1 - t0 s stopped, t2 - t1 s moving and their fare, and ends idle |
| TaximeterCli.ExampleTrip | src/taximeter.py:79 | the loop fed start at 0 s, move at 10 s and finish at 30 s ends with a summary of 10 s stopped, 20 s moving and 1.20 |
| TaximeterCli.CommandLoop | src/taximeter.py:27-100 | the while-loop reading commands one by one and breaking on exit yields, for any clock, the same final locals and answers as the recursive session |
| TaximeterCli.Taximeter | src/taximeter.py:13-100 | for any clock, a run from the initial locals answers as the recursive session and ends in a reachable state; when the two readings of every start, stop and move are in order it also keeps the accounting invariant |
| MainCli.FinishAsWritten | src/main.py:58-77 | finish is refused when idle; on a moving trip it behaves like the newer finish; on a stopped trip it folds the segment into the stopped total but prints nothing and keeps the trip active, stopped, with the same segment start |
| MainCli.Step | src/main.py:28-83 | refused, unknown and exit commands change nothing; the silent answer occurs exactly for finish on an active stopped trip |
| MainCli.StepAgreesWithTaximeter | src/main.py:30-56 | the older loop answers every command exactly as the newer one, except finish on a stopped trip |
| MainCli.Session | src/main.py:28-83 | the older loop also stops exactly at the first exit with one answer per command read, ending in goodbye |
| MainCli.FinishWhileStoppedDoubleCounts | src/main.py:62-77 | after finish at `now` on a stopped trip, a stop at `later` adds the whole interval from the segment start again, so the stopped total holds the stretch up to `now` twice |
| MainCli.FinishWhileStoppedBreaksAccounting | src/main.py:62-66 | finish on a stopped trip shrinks the accounting slack by the whole live segment and breaks the accounting invariant once that segment exceeds the slack |
| MainCli.StoppedFinishRun | src/main.py:58-77 | the loop fed start at t0 and two finishes at t1 answers started and then nothing twice, and ends with the trip still active and stopped, holding 2 * (t1 - t0) stopped seconds |
| MainCli.StepIntended | src/main.py:58-77 | with the finish branch de-indented, finish on an active trip always reports a summary and leaves the meter idle, and the silent answer never occurs |
| MainCli.StepIntendedIsTaximeterStep | src/main.py:58-77 | on every meter and command, the corrected step (summary and reset in both states) is exactly the newer variant's step |
| MainCli.StepIntendedKeepsAccounting | src/main.py:58-77 | the corrected step keeps the meter reachable and, for an ordered command, the accounting invariant |
| GuiTrip.StartTrip | src/gui.py:39-51 | start is refused with no change while a trip is active; otherwise a stopped trip with zero totals whose segment starts now |
| GuiTrip.StopTrip | src/gui.py:56-71 | stop is refused with no change when idle; otherwise the live segment, measured with the same reading that starts the new segment, goes into the total of the state being left, and the state becomes stopped |
| GuiTrip.MoveTrip | src/gui.py:76-91 | move is refused with no change when idle; otherwise the live segment goes into the total of the state being left, and a moving segment starts at the same reading |
| GuiTrip.ResetTimeTrip | src/gui.py:176-183 | the reset globals are idle, with no segment start, zero totals and no state |
| GuiTrip.FinishTrip | src/gui.py:96-133 | finish is refused with no change when idle; otherwise it reports totals including the live segment, in the current state's figure only, with the fare of those totals, and resets the globals |
| GuiTrip.UpdateLabels | src/gui.py:186-195 | the labels show the totals, and a fare only while a trip is active (zero otherwise) |
| GuiTrip.UpdateTimeLabels | src/gui.py:197-214 | the live display shows figures exactly when a trip is active with a segment start; it adds the live segment to the current state's figure only and computes the fare from the projected pair |
| GuiTrip.StartDistanceTrip | src/gui.py:135-146 | as written, a distance is charged exactly when it is a positive finite number, NaN or plus infinity; a finite one is charged at the distance fare; unparsable text, non-positive numbers and minus infinity are refused before any fare is computed |
| GuiTrip.NonFiniteDistanceCharged | src/gui.py:138-146 | the entries "nan" and "inf" pass the `distance <= 0` guard and go on to the fare |
| GuiTrip.StartDistanceTripFinite | src/gui.py:135-146 | with the check the warning describes, a distance is charged exactly when it is a positive finite number, at the distance fare, which is positive for a positive rate |
| GuiTrip.DistanceChecksAgree | src/gui.py:138-146 | the written and the corrected check disagree exactly on NaN and plus infinity; on every other entry both refuse, or both charge the same fare |
| GuiTrip.Handle | src/gui.py:247-259 | each button press or refresh keeps the globals reachable; refusals and refreshes leave them unchanged |
| GuiTrip.Run | src/gui.py:39-111 | any sequence of presses and refreshes keeps the globals reachable and yields one outcome per input |
| GuiTrip.HandleAccountsExactly | src/gui.py:64-71 | every press keeps the accumulators equal to the time from the trip start to the segment start |
| GuiTrip.RunAccountsExactly | src/gui.py:47-111 | after any sequence of inputs, at every instant, stopped + moving + (now - start_time) equals the time since the trip started |
| GuiTrip.RunNonNegative | src/gui.py:64-91 | under a clock that never goes back, both totals stay non-negative |
| GuiTrip.RefreshesDoNotMatter | src/gui.py:197-217 | the globals after presses interleaved with any refreshes are those after the presses alone |
| GuiTrip.ProjectionMatchesFinish | src/gui.py:200-214 | the live display at `now` shows exactly the totals and fare that finishing at `now` would report |
| GuiTrip.LabelsAfterSwitchMatchProjection | src/gui.py:70-72 | after stop or move, the labels show exactly what the live display showed at that instant |
| GuiTrip.LabelsAfterFinish | src/gui.py:179-195 | after finish, the labels show zero seconds and a zero fare |
| GuiTrip.RestartSegmentLosesNothing | src/gui.py:65-71 | stop while stopped or move while moving restarts the segment without losing time: the display at any later instant is unchanged |
| GuiTrip.ProjectionFareMonotone | src/gui.py:213 | with non-negative rates, the fare on the live display never decreases as time passes |

## Findings

| source | as written | input that shows it | evidently intended | confidence | as-written member | corrected member |
|---|---|---|---|---|---|---|
| src/main.py:67-77 | the fare, the summary and the reset are indented under the `else` of the fold, so they run only for a moving trip | `start` at 0 s, `finish` at 10 s while stopped: the trip stays active with no summary; a second `finish` at 10 s leaves 20 s stopped | finish summarises and resets in both states, as the newer variant does | high, not executed | MainCli.StoppedFinishRun | MainCli.StepIntended |
| src/gui.py:138-146 | `float()` accepts "nan", "inf" and "1e309", and `distance <= 0` is false for NaN and plus infinity, so the guard lets them through | distance field "nan" or "inf" (or "1e309"): no warning, and `calculate_distance_fare` is applied to a non-finite distance | only a positive finite distance is charged, as the warning "a positive number other than 0" says | medium, not executed | GuiTrip.NonFiniteDistanceCharged | GuiTrip.StartDistanceTripFinite |

## Left out

- The window, buttons, message boxes and label text of the desktop variant are left out as presentation. So are the `root.after` rescheduling and `mainloop`; one refresh is modelled as one `Refresh` input.
- Logging and the creation of the log directory are left out as I/O.
- `save_history`, `fare_config` and the trip-record dictionaries with `round` and `datetime.now()` are persistence and configuration. The history and config modules are not part of this model.
- `calculate_time_fare`, `calculate_distance_fare` and `get_distance` are imported by the desktop variant but are not part of this model. The time fare takes per-second rates as parameters (`Fares.TimeFare`), and the distance fare is linear in a per-kilometre rate (`Fares.DistanceFare`).
- `update_distance_fare`, the keystroke preview of the distance fare, is left out as display only. On a non-positive distance it writes the time trip's fare label rather than the distance one.
- The text parsing of `float()` is not modelled. Its outcome is an `Entry`: unparsable, a finite number, NaN, or an infinity. What `calculate_distance_fare` makes of a non-finite distance is not modelled. The model records only that such a distance is charged (`ChargedNonFinite`).
- As written, the desktop module stops while loading. Line 9 of src/gui.py imports `calculate_time_fare`, `calculate_distance_fare` and `get_distance` from `taximeter`, and src/taximeter.py defines none of them. Line 223 calls `tk.Tk()`, but `tk` is never imported. So no callback can run as shown. `GuiTrip` models the callbacks as if the module loaded.
- GuiTrip.FinishTrip: if `save_history` raises (src/gui.py:129), `reset_time_trip` at line 133 never runs. That leaves `trip_active = False` with stale totals, `start_time` and `state`. `GuiTrip.Valid` rules this state out, because persistence is not modelled and the model's finish always resets.
- Python float rounding and the `:.2f` formatting are not modelled. All arithmetic is exact.
- `input()`, `print`, and the `lang` and `commands` dictionaries are abstracted. Commands are tokens and printed lines are answer events. The `lang` argument of `calculate_fare` is never read and is dropped. The print inside the older `calculate_fare` is left out.
- The module entry point of the newer command-line variant (`taximeter()` called without its two arguments) is left out.
- The clock is not read. Every reading is a parameter.
- End of input is not an error in the model. In both command-line variants, `input()` raises `EOFError` when the input ends, nothing catches it, and the program stops with a traceback (src/taximeter.py:28, src/main.py:29). A `Session` or `Taximeter` run that ends without `exit` (`exited == false`) stands for such a session, with the locals as they were before the failed read.
- GuiTrip.StopTrip, GuiTrip.MoveTrip and GuiTrip.FinishTrip require the reachable-state invariant `Valid`. An active trip with `start_time = None` cannot arise, and in Python it would raise on the subtraction. All three fold the segment into the stopped total exactly when the state is stopped. `stop_trip` instead tests for moving first. The two tests differ only for state `None`, which an active trip never has.

=== FILE: cli_meter.dfy ===
/** The state machine shared by the two command-line variants: the local variables of
    their `taximeter` loop and the `start`, `stop`/`move` and `finish` branches, which
    read the clock through two separate calls per transition. */
module CliMeter {
  import opened Segments
  import Fares

  /** The loop's locals: `trip_activate`, `start_time` (start of the whole trip), the
      two accumulators, `state` and `state_start_time` (start of the live segment). */
  datatype Meter = Meter(active: bool, tripStart: real, totals: Totals, state: TripState, stateStart: real)

  /** The locals as the loop initialises them before the first prompt. */
  const Fresh := Meter(false, 0.0, Zero, Unset, 0.0)

  /** A command token after the input has been stripped, lower-cased and looked up. */
  datatype Command = Start | Stop | Move | Finish | Exit | Unknown

  /** One command read at the prompt, together with the clock readings its branch takes:
      `first` is the first `time.time()` call of the branch and `second` the second one
      (`start` and `stop`/`move` read the clock twice, `finish` once). */
  datatype Tick = Tick(command: Command, first: real, second: real)

  /** What the loop prints in answer to one command. `NoOutput` is a branch that prints nothing. */
  datatype Event =
    | StartError
    | TripStarted
    | NoTrip
    | StateChanged(state: TripState)
    | Summary(stopped: real, moving: real, fare: real)
    | Goodbye
    | NotRecognised
    | NoOutput

  /** Answers after which the loop leaves every local as it was. */
  predicate Inert(e: Event) {
    e.StartError? || e.NoTrip? || e.NotRecognised? || e.Goodbye?
  }

  /** The loop's final locals, what it printed, and whether it stopped on `exit`. */
  datatype Run = Run(meter: Meter, events: seq<Event>, exited: bool)

  /** States the loop can reach: an active trip is stopped or moving; an idle meter has
      empty accumulators and no state. */
  predicate Valid(m: Meter) {
    if m.active then m.state != Unset else m.totals == Zero && m.state == Unset
  }

  /** Seconds between the trip start and the start of the live segment that neither
      accumulator holds. */
  function Unaccounted(m: Meter): real {
    m.stateStart - m.tripStart - Sum(m.totals)
  }

  /** The accounting invariant of an active trip: accumulated time never exceeds the time
      the trip has run, that is stopped + moving + (now - stateStart) <= now - tripStart
      at every instant `now`. */
  predicate Accounts(m: Meter) {
    m.active ==> Unaccounted(m) >= 0.0
  }

  /** The accounting invariant read at an instant: the totals plus the live segment at
      `now` do not exceed the time since the trip started. */
  predicate WithinElapsed(m: Meter, now: real) {
    m.active ==> Sum(m.totals) + (now - m.stateStart) <= now - m.tripStart
  }

  /** Invariant used for non-negative accumulators under a clock that never goes back. */
  predicate Ordered(m: Meter) {
    NonNegative(m.totals) && (m.active ==> m.tripStart <= m.stateStart)
  }

  /** The clock readings the ticks use never decrease, starting from `from`; the second
      reading counts only for the commands that take it. */
  predicate Clocked(from: real, ticks: seq<Tick>)
    decreases |ticks|
  {
    |ticks| == 0 ||
    if ReadsTwice(ticks[0].command) then
      from <= ticks[0].first <= ticks[0].second && Clocked(ticks[0].second, ticks[1..])
    else
      from <= ticks[0].first && Clocked(ticks[0].first, ticks[1..])
  }

  /** Position of the first `exit` among the ticks, or their number when there is none. */
  function ExitIndex(ticks: seq<Tick>): (k: nat)
    ensures k <= |ticks|
    ensures k < |ticks| ==> ticks[k].command == Exit
    ensures forall i :: 0 <= i < k ==> ticks[i].command != Exit
    decreases |ticks|
  {
    if |ticks| == 0 || ticks[0].command == Exit then 0
    else
      var k := ExitIndex(ticks[1..]);
      assert forall i :: 1 <= i < k + 1 ==> ticks[i] == ticks[1..][i - 1];
      k + 1
  }

  /** The commands whose branch reads the clock twice. */
  predicate ReadsTwice(command: Command) {
    command == Start || command == Stop || command == Move
  }

  /** A tick whose command reads the clock twice has its second reading not earlier than
      the first; `finish`, `exit` and unknown commands never use the second reading. */
  predicate OrderedTick(tick: Tick) {
    ReadsTwice(tick.command) ==> tick.first <= tick.second
  }

  /** Every tick of the run is ordered. */
  predicate ReadsOrdered(ticks: seq<Tick>) {
    forall i :: 0 <= i < |ticks| ==> OrderedTick(ticks[i])
  }

  /** The `start` branch: refused while a trip is active; otherwise a new trip in the
      stopped state, with the trip start and the segment start taken from two readings. */
  function StartTrip(m: Meter, first: real, second: real): (r: (Meter, Event))
    ensures m.active ==> r == (m, StartError)
    ensures !m.active ==> r.1 == TripStarted && r.0.active && r.0.state == Stopped
    ensures !m.active ==> r.0.totals == Zero && r.0.tripStart == first && r.0.stateStart == second
    ensures !m.active ==> Unaccounted(r.0) == second - first
    ensures Valid(m) ==> Valid(r.0)
  {
    if m.active then (m, StartError)
    else (Meter(true, first, Zero, Stopped, second), TripStarted)
  }

  /** The `stop`/`move` branch, switching to `target`: refused when idle; otherwise the
      live segment, measured with the first reading, is folded into the accumulator of the
      state being left, and the new segment starts at the second reading. */
  function SwitchTo(m: Meter, target: TripState, first: real, second: real): (r: (Meter, Event))
    requires target != Unset
    ensures !m.active ==> r == (m, NoTrip)
    ensures m.active ==> r.1 == StateChanged(target) && r.0.active && r.0.state == target
    ensures m.active ==> r.0.stateStart == second && r.0.tripStart == m.tripStart
    ensures m.active ==> Sum(r.0.totals) == Sum(m.totals) + (first - m.stateStart)
    ensures m.active && m.state == Stopped ==> r.0.totals.moving == m.totals.moving
    ensures m.active && m.state == Moving ==> r.0.totals.stopped == m.totals.stopped
    ensures m.active ==> Unaccounted(r.0) == Unaccounted(m) + (second - first)
    ensures Valid(m) ==> Valid(r.0)
  {
    if !m.active then (m, NoTrip)
    else (Meter(true, m.tripStart, Fold(m.totals, m.state, first - m.stateStart), target, second),
          StateChanged(target))
  }

  /** The `finish` branch of the newer variant: refused when idle; otherwise the live
      segment is folded in, the fare is computed from the folded totals and reported, and
      the trip is reset to idle (the two timestamps keep their values). */
  function FinishTrip(m: Meter, now: real): (r: (Meter, Event))
    ensures !m.active ==> r == (m, NoTrip)
    ensures m.active ==> r.0 == m.(active := false, totals := Zero, state := Unset)
    ensures m.active ==> r.1.Summary? && r.1.fare == Fares.CalculateFare(r.1.stopped, r.1.moving)
    ensures m.active ==> r.1.stopped + r.1.moving == Sum(m.totals) + (now - m.stateStart)
    ensures m.active && m.state == Stopped ==> r.1.moving == m.totals.moving
    ensures m.active && m.state == Moving ==> r.1.stopped == m.totals.stopped
    ensures m.active && Accounts(m) ==> r.1.stopped + r.1.moving <= now - m.tripStart
    ensures Valid(m) ==> Valid(r.0)
  {
    if !m.active then (m, NoTrip)
    else
      var t := Fold(m.totals, m.state, now - m.stateStart);
      (m.(active := false, totals := Zero, state := Unset),
       Summary(t.stopped, t.moving, Fares.CalculateFare(t.stopped, t.moving)))
  }
}

=== FILE: fares.dfy ===
/** Fare arithmetic: exact real numbers stand for Python floats. */
module Fares {

  /** Per-second tariffs of a time trip. */
  datatype TimeRates = TimeRates(stoppedPerSecond: real, movingPerSecond: real)

  predicate NonNegativeRates(rates: TimeRates) {
    rates.stoppedPerSecond >= 0.0 && rates.movingPerSecond >= 0.0
  }

  /** The tariff hard-coded in the command-line variants: 0.02 euro per stopped second
      and 0.05 euro per moving second. */
  const CliRates := TimeRates(0.02, 0.05)

  /** The fare of a time trip: each stopped second at the stopped rate plus each moving
      second at the moving rate. */
  function TimeFare(rates: TimeRates, stopped: real, moving: real): (fare: real)
    ensures stopped == 0.0 && moving == 0.0 ==> fare == 0.0
    ensures NonNegativeRates(rates) && stopped >= 0.0 && moving >= 0.0 ==> fare >= 0.0
  {
    stopped * rates.stoppedPerSecond + moving * rates.movingPerSecond
  }

  /** With non-negative rates, more seconds in either state never lower the fare. */
  lemma TimeFareMonotone(rates: TimeRates, stopped1: real, moving1: real, stopped2: real, moving2: real)
    requires NonNegativeRates(rates)
    requires stopped1 <= stopped2 && moving1 <= moving2
    ensures TimeFare(rates, stopped1, moving1) <= TimeFare(rates, stopped2, moving2)
  {
    assert (stopped2 - stopped1) * rates.stoppedPerSecond >= 0.0;
    assert (moving2 - moving1) * rates.movingPerSecond >= 0.0;
  }

  /** The fare of a trip is the sum of the fares of any split of its seconds, so folding
      segments into the accumulators one at a time neither gains nor loses money. */
  lemma TimeFareAdditive(rates: TimeRates, stopped1: real, moving1: real, stopped2: real, moving2: real)
    ensures TimeFare(rates, stopped1 + stopped2, moving1 + moving2)
         == TimeFare(rates, stopped1, moving1) + TimeFare(rates, stopped2, moving2)
  {
  }

  /** `calculate_fare` of the command-line variants (the `lang` argument of the newer
      one is never read, so it is dropped). */
  function CalculateFare(stopped: real, moving: real): (fare: real)
    ensures stopped == 0.0 && moving == 0.0 ==> fare == 0.0
    ensures stopped >= 0.0 && moving >= 0.0 ==> fare >= 0.0
  {
    stopped * 0.02 + moving * 0.05
  }

  /** The command-line fare is the general time fare at the hard-coded rates. */
  lemma CalculateFareIsTimeFare(stopped: real, moving: real)
    ensures CalculateFare(stopped, moving) == TimeFare(CliRates, stopped, moving)
  {
  }

  /** The documented tariff: one stopped second costs 0.02 and one moving second 0.05. */
  lemma CalculateFareTariff()
    ensures CalculateFare(1.0, 0.0) == 0.02
    ensures CalculateFare(0.0, 1.0) == 0.05
  {
  }

  /** Ten seconds stopped and twenty moving cost 10 * 0.02 + 20 * 0.05 = 1.20. */
  lemma CalculateFareExample()
    ensures CalculateFare(10.0, 20.0) == 1.2
  {
  }

  /** The fare of a distance trip at `perKm` euro per kilometre. */
  function DistanceFare(perKm: real, km: real): (fare: real)
    ensures perKm >= 0.0 && km >= 0.0 ==> fare >= 0.0
    ensures perKm > 0.0 && km > 0.0 ==> fare > 0.0
  {
    km * perKm
  }
}

=== FILE: gui_trip.dfy ===
/** The desktop variant: the time trip is kept in module-level globals and driven by four
    buttons, a display refresh samples it once a second, and a separate form computes a
    fare from a distance. Each transition reads the clock once. */
module GuiTrip {
  import opened Wrappers
  import opened Segments
  import opened Fares

  /** The globals `trip_active`, `start_time` (the start of the live segment, `None`
      while idle), the two accumulators and `state`. */
  datatype Globals = Globals(active: bool, startTime: Option<real>, totals: Totals, state: TripState)

  /** The globals at import time, and again after every reset. */
  const Initial := Globals(false, None, Zero, Unset)

  /** States the buttons can reach: an active trip has a segment start and is stopped or
      moving; an idle one is exactly the initial state. */
  predicate Valid(g: Globals) {
    if g.active then g.startTime.Some? && g.state != Unset else g == Initial
  }

  /** The three figures on the time-trip labels: stopped seconds, moving seconds, fare. */
  datatype Display = Display(stopped: real, moving: real, fare: real)

  /** What a button press or a display refresh produces. */
  datatype Outcome =
    | AlreadyActive
    | NoActiveTrip
    | Started
    | StateChanged(state: TripState)
    | Finished(stopped: real, moving: real, fare: real)
    | Refreshed(shown: Option<Display>)

  /** The only way a distance can be refused: unparsable text, or a value the guard finds
      not positive. */
  datatype DistanceError = InvalidDistance

  /** Length at `now` of the live segment. */
  function LiveSegment(g: Globals, now: real): real
    requires g.startTime.Some?
  {
    now - g.startTime.value
  }

  /** `start_trip`: refused while a trip is active; otherwise a fresh trip, stopped, whose
      first segment starts now. */
  function StartTrip(g: Globals, now: real): (r: (Globals, Outcome))
    ensures g.active ==> r == (g, AlreadyActive)
    ensures !g.active ==> r.1 == Started && r.0.active && r.0.state == Stopped
    ensures !g.active ==> r.0.totals == Zero && r.0.startTime == Some(now)
  {
    if g.active then (g, AlreadyActive)
    else (Globals(true, Some(now), Zero, Stopped), Started)
  }

  /** `stop_trip`: refused when idle; otherwise the live segment is folded into the
      accumulator of the state being left and a stopped segment starts now. */
  function StopTrip(g: Globals, now: real): (r: (Globals, Outcome))
    requires Valid(g)
    ensures !g.active ==> r == (g, NoActiveTrip)
    ensures g.active ==> r.1 == StateChanged(Stopped) && r.0.active && r.0.state == Stopped
    ensures g.active ==> r.0.startTime == Some(now)
    ensures g.active ==> Sum(r.0.totals) == Sum(g.totals) + LiveSegment(g, now)
    ensures g.active && g.state == Stopped ==> r.0.totals.moving == g.totals.moving
    ensures g.active && g.state == Moving ==> r.0.totals.stopped == g.totals.stopped
  {
    if !g.active then (g, NoActiveTrip)
    else (Globals(true, Some(now), Fold(g.totals, g.state, LiveSegment(g, now)), Stopped), StateChanged(Stopped))
  }

  /** `move_trip`: refused when idle; otherwise the live segment is folded into the
      accumulator of the state being left and a moving segment starts now. */
  function MoveTrip(g: Globals, now: real): (r: (Globals, Outcome))
    requires Valid(g)
    ensures !g.active ==> r == (g, NoActiveTrip)
    ensures g.active ==> r.1 == StateChanged(Moving) && r.0.active && r.0.state == Moving
    ensures g.active ==> r.0.startTime == Some(now)
    ensures g.active ==> Sum(r.0.totals) == Sum(g.totals) + LiveSegment(g, now)
    ensures g.active && g.state == Stopped ==> r.0.totals.moving == g.totals.moving
    ensures g.active && g.state == Moving ==> r.0.totals.stopped == g.totals.stopped
  {
    if !g.active then (g, NoActiveTrip)
    else (Globals(true, Some(now), Fold(g.totals, g.state, LiveSegment(g, now)), Moving), StateChanged(Moving))
  }

  /** `reset_time_trip`: the globals go back to their initial values. */
  function ResetTimeTrip(): (g: Globals)
    ensures Valid(g) && !g.active && g.startTime.None? && g.totals == Zero && g.state == Unset
  {
    Initial
  }

  /** `finish_trip`: refused when idle; otherwise the live segment is folded in, the fare
      is computed from the folded totals and reported, and the globals are reset. */
  function FinishTrip(g: Globals, now: real, rates: TimeRates): (r: (Globals, Outcome))
    requires Valid(g)
    ensures !g.active ==> r == (g, NoActiveTrip)
    ensures g.active ==> r.0 == Initial && r.1.Finished?
    ensures g.active ==> r.1.stopped + r.1.moving == Sum(g.totals) + LiveSegment(g, now)
    ensures g.active ==> r.1.fare == TimeFare(rates, r.1.stopped, r.1.moving)
    ensures g.active && g.state == Stopped ==> r.1.moving == g.totals.moving
    ensures g.active && g.state == Moving ==> r.1.stopped == g.totals.stopped
  {
    if !g.active then (g, NoActiveTrip)
    else
      var t := Fold(g.totals, g.state, LiveSegment(g, now));
      (ResetTimeTrip(), Finished(t.stopped, t.moving, TimeFare(rates, t.stopped, t.moving)))
  }

  /** `update_labels`: the labels show the accumulators, and a fare only while a trip is
      active (zero otherwise). */
  function UpdateLabels(g: Globals, rates: TimeRates): (d: Display)
    ensures d.stopped == g.totals.stopped && d.moving == g.totals.moving
    ensures g.active ==> d.fare == TimeFare(rates, d.stopped, d.moving)
    ensures !g.active ==> d.fare == 0.0
  {
    if g.active then Display(g.totals.stopped, g.totals.moving, TimeFare(rates, g.totals.stopped, g.totals.moving))
    else Display(g.totals.stopped, g.totals.moving, 0.0)
  }

  /** One firing of `update_time_labels`: while a trip is active it projects the figures
      at `now`, with the live segment added to the current state's figure only and the
      fare computed from the projected pair; otherwise it shows nothing. It returns the
      figures only, so it cannot change the globals. */
  function UpdateTimeLabels(g: Globals, now: real, rates: TimeRates): (r: Option<Display>)
    ensures r.Some? <==> g.active && g.startTime.Some?
    ensures r.Some? ==> r.value.stopped + r.value.moving == Sum(g.totals) + LiveSegment(g, now)
    ensures r.Some? ==> r.value.fare == TimeFare(rates, r.value.stopped, r.value.moving)
    ensures r.Some? && g.state == Stopped ==> r.value.moving == g.totals.moving
    ensures r.Some? && g.state != Stopped ==> r.value.stopped == g.totals.stopped
  {
    if g.active && g.startTime.Some? then
      var duration := LiveSegment(g, now);
      if g.state == Stopped then
        var s := g.totals.stopped + duration;
        Some(Display(s, g.totals.moving, TimeFare(rates, s, g.totals.moving)))
      else
        var m := g.totals.moving + duration;
        Some(Display(g.totals.stopped, m, TimeFare(rates, g.totals.stopped, m)))
    else None
  }

  /** What `float()` makes of the text of the distance field: a `ValueError`, a finite
      number, or one of the non-finite values it also accepts ("nan"; "inf", "-inf", and
      literals too large for a double such as "1e309"). */
  datatype Entry = Unparsable | Finite(value: real) | NotANumber | Infinite(positive: bool)

  /** What `start_distance_trip` goes on to charge: the fare of a finite distance, or
      `calculate_distance_fare` applied to a non-finite one. */
  datatype Charge = Charged(fare: real) | ChargedNonFinite(entry: Entry)

  /** `start_distance_trip` as written: the guard `distance <= 0` refuses unparsable text,
      non-positive numbers and minus infinity, but is false for NaN and plus infinity, so
      those reach the fare. A positive finite distance is charged at `perKm` per km. */
  function StartDistanceTrip(entry: Entry, perKm: real): (r: Result<Charge, DistanceError>)
    ensures r.Success? <==>
      (entry.Finite? && entry.value > 0.0) || entry.NotANumber? || entry == Infinite(true)
    ensures r.Success? && entry.Finite? ==> r.value == Charged(DistanceFare(perKm, entry.value))
    ensures r.Success? && !entry.Finite? ==> r.value == ChargedNonFinite(entry)
  {
    match entry
    case Unparsable => Failure(InvalidDistance)
    case Finite(distance) =>
      if distance <= 0.0 then Failure(InvalidDistance)
      else Success(Charged(DistanceFare(perKm, distance)))
    case NotANumber => Success(ChargedNonFinite(entry))
    case Infinite(positive) =>
      if !positive then Failure(InvalidDistance) else Success(ChargedNonFinite(entry))
  }

  /** The entries "nan" and "inf" get past the guard and are charged. */
  lemma NonFiniteDistanceCharged(perKm: real)
    ensures StartDistanceTrip(NotANumber, perKm) == Success(ChargedNonFinite(NotANumber))
    ensures StartDistanceTrip(Infinite(true), perKm) == Success(ChargedNonFinite(Infinite(true)))
  {
  }

  /** `start_distance_trip` as its warning ("a positive number other than 0") intends: only a
      positive finite distance is charged, at the distance fare. */
  function StartDistanceTripFinite(entry: Entry, perKm: real): (r: Result<real, DistanceError>)
    ensures r.Success? <==> entry.Finite? && entry.value > 0.0
    ensures r.Success? ==> r.value == DistanceFare(perKm, entry.value)
    ensures r.Success? && perKm > 0.0 ==> r.value > 0.0
  {
    if entry.Finite? && entry.value > 0.0 then Success(DistanceFare(perKm, entry.value))
    else Failure(InvalidDistance)
  }

  /** The corrected check differs from the written one only on NaN and plus infinity: on
      every other entry both refuse, or both charge the same fare. */
  lemma DistanceChecksAgree(entry: Entry, perKm: real)
    ensures entry.NotANumber? || entry == Infinite(true) <==>
      StartDistanceTrip(entry, perKm).Success? && StartDistanceTripFinite(entry, perKm).Failure?
    ensures StartDistanceTripFinite(entry, perKm).Success? ==>
      StartDistanceTrip(entry, perKm) == Success(Charged(StartDistanceTripFinite(entry, perKm).value))
    ensures StartDistanceTripFinite(entry, perKm).Failure? && !entry.NotANumber? && entry != Infinite(true) ==>
      StartDistanceTrip(entry, perKm).Failure?
  {
  }

  /** What reaches the globals: a button press or a display refresh, at an instant. */
  datatype Action = PressStart | PressStop | PressMove | PressFinish | Refresh
  datatype Input = Input(action: Action, at: real)

  /** The record of a sequence of inputs: final globals and one outcome per input. */
  datatype Session = Session(globals: Globals, outcomes: seq<Outcome>)

  /** Dispatch of one input to its handler. */
  function Handle(g: Globals, input: Input, rates: TimeRates): (r: (Globals, Outcome))
    requires Valid(g)
    ensures Valid(r.0)
    ensures r.1 == AlreadyActive || r.1 == NoActiveTrip || r.1.Refreshed? ==> r.0 == g
    ensures input.action == Refresh ==> r.1.Refreshed?
  {
    match input.action
    case PressStart => StartTrip(g, input.at)
    case PressStop => StopTrip(g, input.at)
    case PressMove => MoveTrip(g, input.at)
    case PressFinish => FinishTrip(g, input.at, rates)
    case Refresh => (g, Refreshed(UpdateTimeLabels(g, input.at, rates)))
  }

  /** The inputs handled in order. */
  function Run(g: Globals, inputs: seq<Input>, rates: TimeRates): (s: Session)
    requires Valid(g)
    ensures Valid(s.globals)
    ensures |s.outcomes| == |inputs|
    decreases |inputs|
  {
    if |inputs| == 0 then Session(g, [])
    else
      var step := Handle(g, inputs[0], rates);
      var rest := Run(step.0, inputs[1..], rates);
      Session(rest.globals, [step.1] + rest.outcomes)
  }

  /** The instant the trip in progress was started, tracked beside the globals (which
      forget it): a successful start replaces it, nothing else does. */
  function NextTripStart(g: Globals, tripStart: real, input: Input): real {
    if input.action == PressStart && !g.active then input.at else tripStart
  }

  ghost function TripStartAfter(g: Globals, tripStart: real, inputs: seq<Input>, rates: TimeRates): real
    requires Valid(g)
    decreases |inputs|
  {
    if |inputs| == 0 then tripStart
    else TripStartAfter(Handle(g, inputs[0], rates).0, NextTripStart(g, tripStart, inputs[0]), inputs[1..], rates)
  }

  /** The exact accounting invariant: the accumulators hold every second from the trip
      start to the start of the live segment. */
  predicate AccountsExactly(g: Globals, tripStart: real) {
    g.active ==> g.startTime.Some? && Sum(g.totals) == g.startTime.value - tripStart
  }

  /** The exact invariant read at an instant: the totals plus the live segment at `now`
      are the time since the trip started. */
  predicate ElapsedAt(g: Globals, tripStart: real, now: real) {
    g.active ==> g.startTime.Some? && Sum(g.totals) + LiveSegment(g, now) == now - tripStart
  }

  /** Each input keeps the exact accounting invariant. */
  lemma HandleAccountsExactly(g: Globals, tripStart: real, input: Input, rates: TimeRates)
    requires Valid(g) && AccountsExactly(g, tripStart)
    ensures AccountsExactly(Handle(g, input, rates).0, NextTripStart(g, tripStart, input))
  {
  }

  /** After any sequence of inputs, at every instant `now`, stopped + moving + (now -
      start_time) equals the time since the trip started: with one clock reading per
      transition no second is lost or counted twice. */
  lemma {:induction false} RunAccountsExactly(g: Globals, tripStart: real, inputs: seq<Input>, rates: TimeRates, now: real)
    requires Valid(g) && AccountsExactly(g, tripStart)
    ensures AccountsExactly(Run(g, inputs, rates).globals, TripStartAfter(g, tripStart, inputs, rates))
    ensures ElapsedAt(Run(g, inputs, rates).globals, TripStartAfter(g, tripStart, inputs, rates), now)
    decreases |inputs|
  {
    if |inputs| > 0 {
      HandleAccountsExactly(g, tripStart, inputs[0], rates);
      RunAccountsExactly(Handle(g, inputs[0], rates).0, NextTripStart(g, tripStart, inputs[0]), inputs[1..], rates, now);
    }
  }

  /** The input instants never decrease, starting from `from`. */
  predicate Clocked(from: real, inputs: seq<Input>)
    decreases |inputs|
  {
    |inputs| == 0 || (from <= inputs[0].at && Clocked(inputs[0].at, inputs[1..]))
  }

  /** The live segment started no later than `from`. */
  predicate StartedBy(g: Globals, from: real) {
    g.active ==> g.startTime.Some? && g.startTime.value <= from
  }

  /** Under a clock that never goes back, the accumulators never become negative. */
  lemma {:induction false} RunNonNegative(g: Globals, from: real, inputs: seq<Input>, rates: TimeRates)
    requires Valid(g) && NonNegative(g.totals) && StartedBy(g, from)
    requires Clocked(from, inputs)
    ensures NonNegative(Run(g, inputs, rates).globals.totals)
    decreases |inputs|
  {
    if |inputs| > 0 {
      var next := Handle(g, inputs[0], rates).0;
      assert NonNegative(next.totals) && StartedBy(next, inputs[0].at);
      RunNonNegative(next, inputs[0].at, inputs[1..], rates);
    }
  }

  /** The inputs without the display refreshes. */
  function Presses(inputs: seq<Input>): (r: seq<Input>)
    ensures |r| <= |inputs|
    ensures forall i :: 0 <= i < |r| ==> r[i].action != Refresh
    decreases |inputs|
  {
    if |inputs| == 0 then []
    else if inputs[0].action == Refresh then Presses(inputs[1..])
    else [inputs[0]] + Presses(inputs[1..])
  }

  /** The once-a-second refresh never perturbs the trip: the globals after any
      interleaving of refreshes with button presses are those after the presses alone. */
  lemma {:induction false} RefreshesDoNotMatter(g: Globals, inputs: seq<Input>, rates: TimeRates)
    requires Valid(g)
    ensures Run(g, inputs, rates).globals == Run(g, Presses(inputs), rates).globals
    decreases |inputs|
  {
    if |inputs| > 0 {
      var next := Handle(g, inputs[0], rates).0;
      RefreshesDoNotMatter(next, inputs[1..], rates);
      if inputs[0].action != Refresh {
        var p := Presses(inputs);
        assert p[0] == inputs[0] && p[1..] == Presses(inputs[1..]);
      }
    }
  }

  /** The live display at `now` shows exactly the figures and the fare that finishing the
      trip at `now` would report. */
  lemma ProjectionMatchesFinish(g: Globals, now: real, rates: TimeRates)
    requires Valid(g) && g.active
    ensures UpdateTimeLabels(g, now, rates)
         == Some(Display(FinishTrip(g, now, rates).1.stopped, FinishTrip(g, now, rates).1.moving, FinishTrip(g, now, rates).1.fare))
  {
  }

  /** After a stop or a move at `now` the static labels show what the live display showed
      at that instant, so a transition never makes the display jump. */
  lemma LabelsAfterSwitchMatchProjection(g: Globals, now: real, rates: TimeRates)
    requires Valid(g) && g.active
    ensures UpdateLabels(StopTrip(g, now).0, rates) == UpdateTimeLabels(g, now, rates).value
    ensures UpdateLabels(MoveTrip(g, now).0, rates) == UpdateTimeLabels(g, now, rates).value
  {
  }

  /** After finishing, the labels fall back to zero seconds and a zero fare. */
  lemma LabelsAfterFinish(g: Globals, now: real, rates: TimeRates)
    requires Valid(g)
    ensures UpdateLabels(FinishTrip(g, now, rates).0, rates) == Display(0.0, 0.0, 0.0)
  {
  }

  /** Pressing stop on a stopped trip, or move on a moving one, restarts the segment without
      losing time: the display at any later instant is the same as without the press. */
  lemma RestartSegmentLosesNothing(g: Globals, at: real, now: real, rates: TimeRates)
    requires Valid(g) && g.active
    ensures g.state == Stopped ==> UpdateTimeLabels(StopTrip(g, at).0, now, rates) == UpdateTimeLabels(g, now, rates)
    ensures g.state == Moving ==> UpdateTimeLabels(MoveTrip(g, at).0, now, rates) == UpdateTimeLabels(g, now, rates)
  {
    var s := g.totals.stopped;
    var m := g.totals.moving;
    var start := g.startTime.value;
    assert (s + (at - start)) + (now - at) == s + (now - start);
    assert (m + (at - start)) + (now - at) == m + (now - start);
  }

  /** With non-negative rates the fare on the live display never decreases as time passes. */
  lemma ProjectionFareMonotone(g: Globals, now1: real, now2: real, rates: TimeRates)
    requires Valid(g) && g.active && NonNegativeRates(rates)
    requires now1 <= now2
    ensures UpdateTimeLabels(g, now1, rates).value.fare <= UpdateTimeLabels(g, now2, rates).value.fare
  {
    var d1 := UpdateTimeLabels(g, now1, rates).value;
    var d2 := UpdateTimeLabels(g, now2, rates).value;
    TimeFareMonotone(rates, d1.stopped, d1.moving, d2.stopped, d2.moving);
  }
}

=== FILE: main_cli.dfy ===
/** The command loop of the older command-line variant. It shares the `start` and
    `stop`/`move` branches with the newer one, but in its `finish` branch the fare, the
    summary and the reset are indented under the `else`, so they only run when the trip
    is moving. */
module MainCli {
  import opened Segments
  import opened CliMeter
  import TaximeterCli
  import Fares

  /** The `finish` branch as written: the live segment is always folded in, but only a
      moving trip is summarised and reset. A stopped trip stays active and stopped,
      nothing is printed, and `state_start_time` keeps the start of the segment just
      folded in. */
  function FinishAsWritten(m: Meter, now: real): (r: (Meter, Event))
    ensures !m.active ==> r == (m, NoTrip)
    ensures m.active && m.state != Stopped ==> r == FinishTrip(m, now)
    ensures m.active && m.state == Stopped ==> r.1 == NoOutput && r.0.active && r.0.state == Stopped
    ensures m.active && m.state == Stopped ==> r.0.stateStart == m.stateStart && r.0.tripStart == m.tripStart
    ensures m.active && m.state == Stopped ==> r.0.totals == Totals(m.totals.stopped + (now - m.stateStart), m.totals.moving)
  {
    if !m.active then (m, NoTrip)
    else
      var t := Fold(m.totals, m.state, now - m.stateStart);
      if m.state == Stopped then (m.(totals := t), NoOutput)
      else
        (m.(active := false, totals := Zero, state := Unset),
         Summary(t.stopped, t.moving, Fares.CalculateFare(t.stopped, t.moving)))
  }

  /** One pass through the loop body of the older variant. */
  function Step(m: Meter, tick: Tick): (r: (Meter, Event))
    ensures Inert(r.1) ==> r.0 == m
    ensures tick.command == Exit <==> r.1 == Goodbye
    ensures tick.command == Unknown <==> r.1 == NotRecognised
    ensures r.1 == NoOutput <==> tick.command == Finish && m.active && m.state == Stopped
  {
    match tick.command
    case Start => StartTrip(m, tick.first, tick.second)
    case Stop => SwitchTo(m, Stopped, tick.first, tick.second)
    case Move => SwitchTo(m, Moving, tick.first, tick.second)
    case Finish => FinishAsWritten(m, tick.first)
    case Exit => (m, Goodbye)
    case Unknown => (m, NotRecognised)
  }

  /** The two command-line variants behave identically on every command except `finish`
      on a stopped trip. */
  lemma StepAgreesWithTaximeter(m: Meter, tick: Tick)
    requires !(tick.command == Finish && m.active && m.state == Stopped)
    ensures Step(m, tick) == TaximeterCli.Step(m, tick)
  {
  }

  /** The loop of the older variant: it stops after the first `exit`. A run that ends
      without `exit` stands for a session whose input ran out (in which `input()` raises
      `EOFError`). */
  function Session(m: Meter, ticks: seq<Tick>): (r: Run)
    ensures r.exited <==> ExitIndex(ticks) < |ticks|
    ensures |r.events| == if r.exited then ExitIndex(ticks) + 1 else |ticks|
    ensures r.exited ==> r.events[|r.events| - 1] == Goodbye
    decreases |ticks|
  {
    if |ticks| == 0 then Run(m, [], false)
    else
      var step := Step(m, ticks[0]);
      if ticks[0].command == Exit then Run(step.0, [step.1], true)
      else
        var rest := Session(step.0, ticks[1..]);
        Run(rest.meter, [step.1] + rest.events, rest.exited)
  }

  /** A `finish` on a stopped trip counts its live segment twice: the trip stays active
      with the segment from `stateStart` to `now` already in the stopped total and the
      segment start unchanged, so a later `stop` at `later` adds the whole interval from
      `stateStart` to `later` once more. */
  lemma {:induction false} FinishWhileStoppedDoubleCounts(m: Meter, now: real, later: real, after: real)
    requires Valid(m) && m.active && m.state == Stopped
    ensures Step(Step(m, Tick(Finish, now, now)).0, Tick(Stop, later, after)).0.totals
         == Totals(m.totals.stopped + (now - m.stateStart) + (later - m.stateStart), m.totals.moving)
  {
    var f := Step(m, Tick(Finish, now, now)).0;
    assert f == m.(totals := Totals(m.totals.stopped + (now - m.stateStart), m.totals.moving));
    var s := Step(f, Tick(Stop, later, after)).0;
    assert s.totals == Fold(f.totals, Stopped, later - m.stateStart);
  }

  /** Hence the accounting invariant of the newer variant is not kept: a `finish` on a
      stopped trip uses up the slack of the invariant by the whole live segment, and as
      soon as that segment is longer than the slack (always, when the clock readings of
      earlier transitions coincide), the accumulated time exceeds the time the trip has
      run. */
  lemma FinishWhileStoppedBreaksAccounting(m: Meter, now: real)
    requires Valid(m) && m.active && m.state == Stopped
    ensures Step(m, Tick(Finish, now, now)).0.active
    ensures Unaccounted(Step(m, Tick(Finish, now, now)).0) == Unaccounted(m) - (now - m.stateStart)
    ensures now - m.stateStart > Unaccounted(m) ==> !Accounts(Step(m, Tick(Finish, now, now)).0)
  {
    var f := Step(m, Tick(Finish, now, now)).0;
    assert f == m.(totals := Totals(m.totals.stopped + (now - m.stateStart), m.totals.moving));
  }

  /** A run from a fresh meter: a trip started at `t0` and finished at `t1` while stopped
      is still active after the `finish` and prints no summary, and a second `finish` at
      the same instant leaves twice the trip's length in the stopped total (20 s for a
      trip from 0 s to 10 s). */
  lemma StoppedFinishRun(t0: real, t1: real)
    ensures Session(Fresh, [Tick(Start, t0, t0), Tick(Finish, t1, t1), Tick(Finish, t1, t1)])
         == Run(Meter(true, t0, Totals(2.0 * (t1 - t0), 0.0), Stopped, t0), [TripStarted, NoOutput, NoOutput], false)
  {
    var ticks := [Tick(Start, t0, t0), Tick(Finish, t1, t1), Tick(Finish, t1, t1)];
    var s1 := Meter(true, t0, Zero, Stopped, t0);
    var s2 := Meter(true, t0, Totals(t1 - t0, 0.0), Stopped, t0);
    var s3 := Meter(true, t0, Totals(2.0 * (t1 - t0), 0.0), Stopped, t0);
    assert Step(Fresh, ticks[0]) == (s1, TripStarted);
    assert Step(s1, ticks[1]) == (s2, NoOutput);
    assert Fold(s2.totals, Stopped, t1 - t0) == s3.totals;
    assert Step(s2, ticks[2]) == (s3, NoOutput);
    assert ticks[1..][1..] == [ticks[2]] && ticks[1..][1..][1..] == [];
    assert Session(s2, ticks[1..][1..]) == Run(s3, [NoOutput], false);
  }

  /** The corrected loop: the older variant with its `finish` branch de-indented, which is
      the newer variant's step. Each step of it keeps the accounting invariant for an ordered
      tick, and since it is the newer step, `TaximeterCli.SessionAccounts` covers its runs. */
  function StepIntended(m: Meter, tick: Tick): (r: (Meter, Event))
    ensures tick.command == Finish && m.active ==> r.1.Summary? && !r.0.active
    ensures r.1 != NoOutput
  {
    match tick.command
    case Finish => FinishTrip(m, tick.first)
    case _ => Step(m, tick)
  }

  /** On every meter and command, the corrected step coincides with the newer variant's
      step. */
  lemma StepIntendedIsTaximeterStep(m: Meter, tick: Tick)
    ensures StepIntended(m, tick) == TaximeterCli.Step(m, tick)
  {
  }

  /** Hence the corrected step keeps the reachable states and, for an ordered tick, the
      accounting invariant (see `TaximeterCli.SessionAccounts`). */
  lemma StepIntendedKeepsAccounting(m: Meter, tick: Tick)
    requires Valid(m) && Accounts(m) && OrderedTick(tick)
    ensures Valid(StepIntended(m, tick).0) && Accounts(StepIntended(m, tick).0)
  {
    StepIntendedIsTaximeterStep(m, tick);
    TaximeterCli.StepKeepsInvariants(m, tick);
  }
}

=== FILE: segments.dfy ===
/** Time accounting shared by the three variants of the trip state machine. */
module Segments {

  /** The `state` variable of a trip: `None` while no trip runs, else 'stopped' or 'moving'. */
  datatype TripState = Unset | Stopped | Moving

  /** The two accumulators, in seconds: time already spent stopped and moving in the
      closed segments of the trip (the live segment is not included). */
  datatype Totals = Totals(stopped: real, moving: real)

  const Zero := Totals(0.0, 0.0)

  /** Total seconds held by both accumulators. */
  function Sum(t: Totals): real {
    t.stopped + t.moving
  }

  predicate NonNegative(t: Totals) {
    t.stopped >= 0.0 && t.moving >= 0.0
  }

  /** Folds a closed segment of `duration` seconds, spent in `state`, into the accumulator
      of that state: a 'stopped' segment goes to the stopped total, any other to the
      moving total. */
  function Fold(t: Totals, state: TripState, duration: real): (r: Totals)
    ensures Sum(r) == Sum(t) + duration
    ensures state == Stopped ==> r.moving == t.moving
    ensures state != Stopped ==> r.stopped == t.stopped
    ensures NonNegative(t) && duration >= 0.0 ==> NonNegative(r)
  {
    if state == Stopped then Totals(t.stopped + duration, t.moving)
    else Totals(t.stopped, t.moving + duration)
  }
}

=== FILE: taximeter_cli.dfy ===
/** The command loop of the newer command-line variant: one step per command read at the
    prompt, with the clock passed in through the ticks. */
module TaximeterCli {
  import opened Segments
  import opened CliMeter

  /** One pass through the loop body for one command. */
  function Step(m: Meter, tick: Tick): (r: (Meter, Event))
    ensures Inert(r.1) ==> r.0 == m
    ensures tick.command == Exit <==> r.1 == Goodbye
    ensures tick.command == Unknown <==> r.1 == NotRecognised
    ensures r.1.Summary? ==> !r.0.active && r.0.totals == Zero && r.0.state == Unset
  {
    match tick.command
    case Start => StartTrip(m, tick.first, tick.second)
    case Stop => SwitchTo(m, Stopped, tick.first, tick.second)
    case Move => SwitchTo(m, Moving, tick.first, tick.second)
    case Finish => FinishTrip(m, tick.first)
    case Exit => (m, Goodbye)
    case Unknown => (m, NotRecognised)
  }

  /** Every step keeps the meter reachable and, when the two readings of the tick are in
      order, keeps the accounting invariant. */
  lemma StepKeepsInvariants(m: Meter, tick: Tick)
    requires Valid(m)
    ensures Valid(Step(m, tick).0)
    ensures Accounts(m) && OrderedTick(tick) ==> Accounts(Step(m, tick).0)
  {
    if ReadsTwice(tick.command) && Accounts(m) && OrderedTick(tick) {
      assert tick.first <= tick.second;
    }
  }

  /** The loop run over the commands typed: it stops after the first `exit`. A run that
      ends without `exit` stands for a session whose input ran out (in which `input()`
      raises `EOFError`). It mirrors `MainCli.Session` step for step; only the step differs. */
  function Session(m: Meter, ticks: seq<Tick>): (r: Run)
    ensures r.exited <==> ExitIndex(ticks) < |ticks|
    ensures |r.events| == if r.exited then ExitIndex(ticks) + 1 else |ticks|
    ensures r.exited ==> r.events[|r.events| - 1] == Goodbye
    decreases |ticks|
  {
    if |ticks| == 0 then Run(m, [], false)
    else
      var step := Step(m, ticks[0]);
      if ticks[0].command == Exit then Run(step.0, [step.1], true)
      else
        var rest := Session(step.0, ticks[1..]);
        Run(rest.meter, [step.1] + rest.events, rest.exited)
  }

  /** Every run of the loop in which the two readings of every start, stop and move are
      in order keeps the meter in a reachable state that satisfies the accounting
      invariant: at every instant `now`, stopped + moving + (now -
      state_start_time) <= now - start_time. Equality is not promised, because each
      transition loses the time between its two clock readings. */
  lemma {:induction false} SessionAccounts(m: Meter, ticks: seq<Tick>, now: real)
    requires Valid(m) && Accounts(m)
    requires ReadsOrdered(ticks)
    ensures Valid(Session(m, ticks).meter) && Accounts(Session(m, ticks).meter)
    ensures WithinElapsed(Session(m, ticks).meter, now)
    decreases |ticks|
  {
    if |ticks| > 0 {
      var step := Step(m, ticks[0]);
      assert OrderedTick(ticks[0]);
      StepKeepsInvariants(m, ticks[0]);
      if ticks[0].command != Exit {
        assert ReadsOrdered(ticks[1..]) by {
          forall i | 0 <= i < |ticks[1..]| ensures OrderedTick(ticks[1..][i]) {
            assert ticks[1..][i] == ticks[i + 1];
          }
        }
        SessionAccounts(step.0, ticks[1..], now);
      }
    }
  }

  /** Whatever the clock does, every run of the loop keeps the meter in a reachable state. */
  lemma {:induction false} SessionValid(m: Meter, ticks: seq<Tick>)
    requires Valid(m)
    ensures Valid(Session(m, ticks).meter)
    decreases |ticks|
  {
    if |ticks| > 0 {
      StepKeepsInvariants(m, ticks[0]);
      if ticks[0].command != Exit {
        SessionValid(Step(m, ticks[0]).0, ticks[1..]);
      }
    }
  }

  /** The accounting gap is exactly the time between the two clock readings of each
      transition: after `start` read at `first` then `second`, the live segment starts
      `second - first` seconds after the trip. */
  lemma StartLosesReadGap(m: Meter, first: real, second: real)
    requires !m.active && first < second
    ensures Step(m, Tick(Start, first, second)).0.active
    ensures Unaccounted(Step(m, Tick(Start, first, second)).0) > 0.0
  {
  }

  /** Under a clock that never goes back, the accumulators never become negative. */
  lemma {:induction false} SessionNonNegative(m: Meter, from: real, ticks: seq<Tick>)
    requires Valid(m) && Ordered(m) && m.stateStart <= from
    requires Clocked(from, ticks)
    ensures NonNegative(Session(m, ticks).meter.totals)
    decreases |ticks|
  {
    if |ticks| > 0 {
      var step := Step(m, ticks[0]);
      var next := if ReadsTwice(ticks[0].command) then ticks[0].second else ticks[0].first;
      assert Ordered(step.0) && step.0.stateStart <= next;
      if ticks[0].command != Exit {
        SessionNonNegative(step.0, next, ticks[1..]);
      }
    }
  }

  /** A trip started at `t0`, set moving at `t1` and finished at `t2` (each transition
      reading the clock once) reports `t1 - t0` seconds stopped, `t2 - t1` seconds moving
      and the fare of those, and leaves the meter idle. */
  lemma StartMoveFinish(t0: real, t1: real, t2: real)
    ensures Session(Fresh, [Tick(Start, t0, t0), Tick(Move, t1, t1), Tick(Finish, t2, t2)]).events
         == [TripStarted, StateChanged(Moving), Summary(t1 - t0, t2 - t1, Fares.CalculateFare(t1 - t0, t2 - t1))]
    ensures !Session(Fresh, [Tick(Start, t0, t0), Tick(Move, t1, t1), Tick(Finish, t2, t2)]).meter.active
  {
    var ticks := [Tick(Start, t0, t0), Tick(Move, t1, t1), Tick(Finish, t2, t2)];
    var s1 := Meter(true, t0, Zero, Stopped, t0);
    var s2 := Meter(true, t0, Totals(t1 - t0, 0.0), Moving, t1);
    assert Step(Fresh, ticks[0]) == (s1, TripStarted);
    assert Step(s1, ticks[1]) == (s2, StateChanged(Moving));
    assert Fold(s2.totals, Moving, t2 - t1) == Totals(t1 - t0, t2 - t1);
    var last := Step(s2, ticks[2]);
    assert last.1 == Summary(t1 - t0, t2 - t1, Fares.CalculateFare(t1 - t0, t2 - t1));
    assert ticks[1..][1..] == [ticks[2]] && ticks[1..][1..][1..] == [];
    assert Session(s2, ticks[1..][1..]) == Run(last.0, [last.1], false);
  }

  /** A trip of 10 s stopped and 20 s moving: start at 0 s, move at 10 s, finish at 30 s
      reports 10 s stopped, 20 s moving and a fare of 1.20. */
  lemma ExampleTrip()
    ensures Session(Fresh, [Tick(Start, 0.0, 0.0), Tick(Move, 10.0, 10.0), Tick(Finish, 30.0, 30.0)]).events
         == [TripStarted, StateChanged(Moving), Summary(10.0, 20.0, 1.2)]
  {
    StartMoveFinish(0.0, 10.0, 30.0);
    Fares.CalculateFareExample();
  }

  /** The session that has already printed `done` and resumes at meter `m` on `ticks`. */
  function Resume(m: Meter, done: seq<Event>, ticks: seq<Tick>): Run {
    var s := Session(m, ticks);
    Run(s.meter, done + s.events, s.exited)
  }

  /** Resuming at the `i`-th command is one step followed by resuming at the next one, or
      the end of the run when that step was `exit`. */
  lemma ResumeUnfold(m: Meter, done: seq<Event>, ticks: seq<Tick>, i: nat)
    requires i < |ticks|
    ensures ticks[i].command == Exit ==>
      Resume(m, done, ticks[i..]) == Run(Step(m, ticks[i]).0, done + [Step(m, ticks[i]).1], true)
    ensures ticks[i].command != Exit ==>
      Resume(m, done, ticks[i..]) == Resume(Step(m, ticks[i]).0, done + [Step(m, ticks[i]).1], ticks[i + 1..])
  {
    var step := Step(m, ticks[i]);
    assert ticks[i..][0] == ticks[i];
    if ticks[i].command != Exit {
      assert ticks[i..][1..] == ticks[i + 1..];
      var rest := Session(step.0, ticks[i + 1..]);
      assert done + ([step.1] + rest.events) == (done + [step.1]) + rest.events;
    }
  }

  /** A session from the meter `taximeter` starts with ends reachable, and accounted
      for when the clock readings are in order. */
  lemma FreshSessionInvariants(ticks: seq<Tick>)
    ensures Valid(Session(Fresh, ticks).meter)
    ensures ReadsOrdered(ticks) ==> Accounts(Session(Fresh, ticks).meter)
  {
    SessionValid(Fresh, ticks);
    if ReadsOrdered(ticks) {
      SessionAccounts(Fresh, ticks, 0.0);
    }
  }

  /** The `while True` loop of `taximeter`, written as a loop: it reads the ticks in order,
      applies one step per command and breaks out on `exit`, answering exactly as the
      recursive session does. */
  method CommandLoop(ticks: seq<Tick>) returns (final: Meter, events: seq<Event>)
    ensures final == Session(Fresh, ticks).meter && events == Session(Fresh, ticks).events
  {
    final, events := Fresh, [];
    assert events + Session(Fresh, ticks).events == Session(Fresh, ticks).events;
    var i := 0;
    while i < |ticks|
      invariant 0 <= i <= |ticks|
      invariant Resume(final, events, ticks[i..]) == Session(Fresh, ticks)
      decreases |ticks| - i
    {
      var step := Step(final, ticks[i]);
      ResumeUnfold(final, events, ticks, i);
      final, events := step.0, events + [step.1];
      if ticks[i].command == Exit {
        return;
      }
      i := i + 1;
    }
    assert ticks[i..] == [];
  }

  /** `taximeter` from its initial locals: any clock is accepted, and the run ends in a
      reachable state; the accounting invariant is promised only when the two readings of
      every start, stop and move are in order. */
  method Taximeter(ticks: seq<Tick>) returns (final: Meter, events: seq<Event>)
    ensures final == Session(Fresh, ticks).meter && events == Session(Fresh, ticks).events
    ensures Valid(final)
    ensures ReadsOrdered(ticks) ==> Accounts(final)
  {
    final, events := CommandLoop(ticks);
    FreshSessionInvariants(ticks);
  }
}

=== FILE: wrappers.dfy ===
/** Option and Result, for inputs that may be missing and operations that may be refused. */
module Wrappers {

  /** A value that may be absent: Python's `None` or a failed parse. */
  datatype Option<+T> = None | Some(value: T)

  /** The outcome of an operation that either yields a value or reports an error. */
  datatype Result<+R, +E> = Success(value: R) | Failure(error: E)
}
